=== FILE: README.md ===
# ECS deployment configuration — a Dafny model

This project models the ECS deployment configuration of the AWS CDK CodeDeploy
library (`EcsDeploymentConfig`). The constructor takes four inputs:

- a traffic-shifting type, Canary or Linear;
- an integer step percentage;
- an interval in minutes;
- an optional explicit name.

It either throws or builds a configuration:

- **Parameter validation.** The percentage must lie in 1..99. The interval must
  be at most 2880 minutes (two days). The percentage is checked first.
- **Traffic routing configuration.** Its type string is `TimeBased` followed by
  the type. A Canary config carries only a `timeBasedCanary` section and a Linear
  config only a `timeBasedLinear` section. Each section holds the interval and
  the percentage.
- **Configuration name.** The explicit name is used verbatim. Without one, the
  name is generated as
  `<uniqueId>.ECS<type><percentage>Percent[Every]<minutes>Minutes`, where
  `Every` appears only for Linear.
- **ARN.** The ARN is computed from the name alone.
- **Deferred name check.** The constructor registers a validation hook that
  runs at synthesis. The hook reports a name longer than 100 characters, and a
  name that holds a character other than letters, digits and `. _ + = , @ -`.
- **References.** An imported configuration and the five predefined ones are
  plain name-and-ARN records.

The model is functional. The constructor is a pure function from its inputs to
a `Result`, either the built configuration or the error it throws. The
construct's unique id and the ARN formula live outside this code, so they are
parameters. `uniqueId` is a string. `arnFor` is a function from names to ARNs.

Files:

- `wrappers.dfy`: `Option`, `Result` and `Outcome`.
- `decimal.dfy`: how a JavaScript template literal renders an integer whose
  magnitude is at most 2^53, and a reader that recovers the integer from that text.
- `name_validation.dfy`: the name rules and the errors the hook reports.
- `deployment_config.dfy`: the constructor, the percentage error's text and a
  parser for it, the routing configuration, the generated name and a parser for it, references, and the hook as seen at
  synthesis.

Every operation is paired with a partner and a lemma connecting the two:

- The routing configuration has a reader, and round-trip lemmas go both ways.
- The generated name has a strict parser. The lemmas go both ways: a name parses to given parameters if and only if it is their generated name. This gives injectivity: two
  different parameter sets never get the same generated name for the same
  construct.
- The name check is tied to the generated name. A generated name always passes
  when the unique id is plain and at most 65 characters long. It always fails
  when the unique id is 75 characters or more.

The code and the error text disagree on one point. The interval error message
says intervals "must be positive integers up to 2880", but the code checks only
the upper bound. The model follows the code: an interval of 0 minutes is
accepted (`ValidateParameters`, `NewEcsDeploymentConfig`).

## Model

| member | source | states |
|---|---|---|
| `DeploymentConfig.ValidateParameters` | packages/@aws-cdk/aws-codedeploy/lib/ecs/deployment-config.ts:155-167 | Passes exactly when the percentage is in 1..99 and the interval is at most 2880 minutes. An out-of-range percentage is reported even when the interval is also bad. A bad interval is reported only when the percentage is fine. There is no lower bound on the interval. |
| `DeploymentConfig.PercentageMessage` | packages/@aws-cdk/aws-codedeploy/lib/ecs/deployment-config.ts:157-160 | The text thrown for an out-of-range percentage reads back as that percentage. It is `Invalid deployment config percentage "<p>". `, then eight spaces kept by the line continuation, then `Step percentage must be an integer between 1 and 99.` |
| `DeploymentConfig.PercentageFromMessageSound` | packages/@aws-cdk/aws-codedeploy/lib/ecs/deployment-config.ts:157-160 | Conversely, any text that reads as a percentage is exactly the message for that percentage. |
| `DeploymentConfig.PercentageMessageInjective` | packages/@aws-cdk/aws-codedeploy/lib/ecs/deployment-config.ts:157-160 | Different rejected percentages are reported with different messages. |
| `DeploymentConfig.NewEcsDeploymentConfig` | packages/@aws-cdk/aws-codedeploy/lib/ecs/deployment-config.ts:112-153 | Fails exactly when the parameters are out of range, with the same error as parameter validation, so an explicit name does not bypass the check. On success the name is the explicit one verbatim, or else exactly `GeneratedName` of the unique id, type, percentage and interval. The ARN is `arnFor(name)`. The emitted resource has the same name and platform `ECS`. Its routing configuration reads back to the given parameters. |
| `DeploymentConfig.RoutingConfig` | packages/@aws-cdk/aws-codedeploy/lib/ecs/deployment-config.ts:116-135 | The type string is `TimeBased` followed by the type name. The canary section is present iff the type is Canary. The linear section is present iff the type is Linear. |
| `DeploymentConfig.RoutingConfigRoundTrip` | packages/@aws-cdk/aws-codedeploy/lib/ecs/deployment-config.ts:117-135 | Reading a built routing configuration gives back exactly the type, percentage and interval it was built from. Canary puts the interval in `canaryInterval` and the percentage in `canaryPercentage`. Linear uses the `linear` fields. |
| `DeploymentConfig.RoutingParametersComplete` | packages/@aws-cdk/aws-codedeploy/lib/ecs/deployment-config.ts:117-135 | Conversely, every routing configuration that reads as well formed is the one the constructor builds from those parameters. |
| `DeploymentConfig.GeneratedName` | packages/@aws-cdk/aws-codedeploy/lib/ecs/deployment-config.ts:140-143 | The name generated when none is given parses back into exactly the type, percentage and interval it was generated from, given the construct's unique id. |
| `DeploymentConfig.ParseGeneratedNameSound` | packages/@aws-cdk/aws-codedeploy/lib/ecs/deployment-config.ts:140-143 | Conversely, any name that parses to a type, percentage and interval is exactly the generated name for them. Numbers with leading zeros and `-0` do not parse, so `…ECSLinear05Percent…` is not accepted. |
| `DeploymentConfig.GeneratedNameCharacterized` | packages/@aws-cdk/aws-codedeploy/lib/ecs/deployment-config.ts:140-143 | A name parses to given parameters if and only if it is the generated name for them. Together with the two rows above, this pins the generated text exactly. |
| `DeploymentConfig.GeneratedNameInjective` | packages/@aws-cdk/aws-codedeploy/lib/ecs/deployment-config.ts:140-143 | Two generated names for the same construct are equal only if their type, percentage and interval are equal. |
| `DeploymentConfig.GeneratedNameAllowedChars` | packages/@aws-cdk/aws-codedeploy/lib/ecs/deployment-config.ts:140-143 | A generated name uses only characters the name check allows, whenever the unique id does. |
| `DeploymentConfig.GeneratedNameLength` | packages/@aws-cdk/aws-codedeploy/lib/ecs/deployment-config.ts:140-143 | For validated parameters, a generated name is 26 to 35 characters longer than the unique id. |
| `DeploymentConfig.GeneratedNameValid` | packages/@aws-cdk/aws-codedeploy/lib/ecs/deployment-config.ts:140-152 | The deferred name check accepts the generated name when the unique id is plain and at most 65 characters long. |
| `DeploymentConfig.GeneratedNameTooLong` | packages/@aws-cdk/aws-codedeploy/lib/ecs/deployment-config.ts:140-152 | The deferred name check rejects the generated name when the unique id is 75 characters or longer. |
| `DeploymentConfig.ExplicitNameOnlyChangesName` | packages/@aws-cdk/aws-codedeploy/lib/ecs/deployment-config.ts:112-150 | With and without an explicit name, the same parameters succeed or fail alike, with the same error. On success the explicit name is used verbatim, and the routing configuration and compute platform are identical. |
| `DeploymentConfig.Reference` | packages/@aws-cdk/aws-codedeploy/lib/ecs/deployment-config.ts:170-175 | A reference built from a name keeps that name unchanged, and its ARN is `arnFor(name)`. |
| `DeploymentConfig.FromEcsDeploymentConfigName` | packages/@aws-cdk/aws-codedeploy/lib/ecs/deployment-config.ts:94-98 | An imported configuration keeps the given name unchanged, and its ARN is `arnFor(name)`. |
| `DeploymentConfig.ImportOfConstructedConfig` | packages/@aws-cdk/aws-codedeploy/lib/ecs/deployment-config.ts:140-144 | Importing a built configuration by its name gives the same name and ARN as the configuration itself, so the ARN depends on the name alone. |
| `DeploymentConfig.PredefinedConfigsAreImports` | packages/@aws-cdk/aws-codedeploy/lib/ecs/deployment-config.ts:80-84 | Each of the five predefined configurations equals an import of its fixed name. For example, `ALL_AT_ONCE` is `CodeDeployDefault.ECSAllAtOnce`. |
| `DeploymentConfig.LinearExample` | packages/@aws-cdk/aws-codedeploy/test/ecs/deployment-config.test.ts:13-33 | A Linear 5 % / 1 minute config under `MyConfig` is named `MyConfig.ECSLinear5PercentEvery1Minutes`. It carries only `TimeBasedLinear(1, 5)` under type `TimeBasedLinear`. |
| `DeploymentConfig.CanaryExample` | packages/@aws-cdk/aws-codedeploy/test/ecs/deployment-config.test.ts:35-55 | A Canary 5 % / 1 minute config under `MyConfig` is named `MyConfig.ECSCanary5Percent1Minutes`. It carries only `TimeBasedCanary(1, 5)` under type `TimeBasedCanary`. |
| `DeploymentConfig.ValidationErrors` | packages/@aws-cdk/aws-codedeploy/lib/ecs/deployment-config.ts:152 | The hook registered by the constructor reports nothing exactly when the chosen name is valid. Every error it reports is about that name, as a `Deployment config` name. |
| `DeploymentConfig.Synthesize` | packages/@aws-cdk/aws-codedeploy/test/ecs/deployment-config.test.ts:86-110 | Synthesis of a configuration succeeds exactly when its name is valid, and then emits exactly the configuration's resource. Otherwise it fails with the message of every error the hook reported, in order. |
| `DeploymentConfig.ExplicitNameCheckedAtSynthesis` | packages/@aws-cdk/aws-codedeploy/test/ecs/deployment-config.test.ts:86-110 | With valid parameters, construction succeeds whatever the explicit name is. Synthesis then fails exactly when the name is invalid. The too-long error is reported iff the name exceeds 100 characters. The character error is reported iff the name holds a disallowed character. |
| `DeploymentConfig.LongNameReported` | packages/@aws-cdk/aws-codedeploy/test/ecs/deployment-config.test.ts:86-97 | A name of 101 `a`s gets exactly one error, the too-long one. |
| `DeploymentConfig.LongNameMessage` | packages/@aws-cdk/aws-codedeploy/test/ecs/deployment-config.test.ts:96 | The too-long message is `Deployment config name: "<name>"` followed by `TooLongText`. That constant is ` can be a max of 100 characters.`, as the test expects. |
| `DeploymentConfig.SpacedNameReported` | packages/@aws-cdk/aws-codedeploy/test/ecs/deployment-config.test.ts:99-110 | `my name` gets exactly one error, the disallowed-character one. |
| `DeploymentConfig.SpacedNameMessage` | packages/@aws-cdk/aws-codedeploy/test/ecs/deployment-config.test.ts:109 | The message for `my name` is `Deployment config name: "my name"` followed by `AllowedCharactersText`. That constant spells out the allowed character classes exactly as the test expects. |
| `NameValidation.NameErrors` | packages/@aws-cdk/aws-codedeploy/test/ecs/deployment-config.test.ts:86-110 | There are no errors iff the name is at most 100 characters long and uses only allowed characters. The too-long error is present iff the name is over 100 characters. The character error is present iff some character is not allowed. No error is reported twice, and the too-long error comes first. |
| `Decimal.NatToString` | packages/@aws-cdk/aws-codedeploy/lib/ecs/deployment-config.ts:141-143 | A number in the generated name is rendered as a non-empty run of digits with no leading zero. |
| `Decimal.ReadIntOfIntToString` | packages/@aws-cdk/aws-codedeploy/lib/ecs/deployment-config.ts:141 | A rendered integer followed by a non-digit reads back as the same integer and the same remaining text. This is what lets a generated name be parsed unambiguously. |
| `Decimal.ReadIntSound` | packages/@aws-cdk/aws-codedeploy/lib/ecs/deployment-config.ts:141 | Conversely, whatever the reader accepts is a rendered integer followed by the remaining text, so the reader accepts only the form that rendering produces. |

## Left out

- `utils.ts`, which holds `validateName` and `arnForDeploymentConfig`, is not part of this model.
  - The name rules and the exact messages come from the tests at `deployment-config.test.ts:86-110`.
  - The ARN is the parameter `arnFor`.
- `NameValidation.NameErrors`: the tests do not say whether an empty name is rejected, and the model accepts it.
- `NameValidation.NameErrors`: when a name breaks both rules, the model lists the too-long error first and never repeats an error. The tests trigger one rule at a time, so this order is the model's choice.
- `NameValidation.NameErrors`: lengths are counted in Unicode scalar values (Dafny's `string`), not JavaScript UTF-16 code units.
  - A character outside the Basic Multilingual Plane counts once here but twice in the library's `.length`.
  - For example, 51 copies of U+1F600 get both errors from the library but only the character error here.
  - Validity never differs, because such characters are disallowed anyway.
- The name hook skips unresolved tokens. Names here are always literal strings, so that case is not modelled.
- `Names.uniqueId` is defined in `@aws-cdk/core`, outside this model. It is a string parameter, and its hashing and truncation are not modelled.
- `Duration` is defined in `@aws-cdk/core`, outside this model. It is whole minutes (`nat`); non-integral durations and `Duration.toString` are not modelled.
- The percentage is an `int`. TypeScript's `number` also admits fractions and NaN, which are left out.
- `Decimal.IntToString`: JavaScript's rendering agrees with the model only for magnitudes up to 2^53.
  - Above 2^53, not every integer is a JavaScript number.
  - Above 2^53, JavaScript prints the shortest digits that round back to the same double, padded with zeros: `${2**60}` is `1152921504606847000`.
  - From 10^21 on, JavaScript uses exponent form (`1e+21`).
  - The model renders every integer in exact plain digits.
  - Validated parameters never come near that range: percentages are 1..99 and intervals at most 2880.
  - So the generated-name lemmas, stated for every integer, match JavaScript only up to 2^53. The same holds for the message of a rejected percentage.
- `ValidateParameters`: the interval error's text is not modelled, because it embeds `Duration.toString`, which is outside this model. The percentage error's text is modelled by `PercentageMessage`.
- `Resource` and `Construct` are not modelled: scope, id and registration on the construct tree.
  - The emitted `CfnDeploymentConfig` is a record.
  - The registered hook is the function `ValidationErrors`.
- `Synthesize`: only the part of app synthesis that concerns one configuration is modelled (running its hook, then emitting or failing). The synthesis engine is defined in `@aws-cdk/core`, outside this model.
- The ECS deployment group and the integration scaffold are not modelled. Their constructs are defined outside `deployment-config.ts`, and they only wire configurations into other resources.

=== FILE: decimal.dfy ===
/**
 * Decimal rendering of integers, together with a reader that recovers the
 * number. This is how JavaScript renders an integer-valued number whose
 * magnitude is at most 2^53. Beyond that JavaScript prints the shortest digits
 * that round back to the same double, padded with zeros, and from 10^21 on it
 * uses exponent form ("1e+21"); neither is modelled.
 */
module Decimal {
  import opened Wrappers

  predicate IsDigit(c: char) {
    '0' <= c <= '9'
  }

  predicate AllDigits(s: string) {
    forall i :: 0 <= i < |s| ==> IsDigit(s[i])
  }

  function DigitChar(d: nat): (c: char)
    requires d < 10
    ensures IsDigit(c)
    ensures c as int - '0' as int == d
  {
    ('0' as int + d) as char
  }

  function DigitValue(c: char): (d: nat)
    requires IsDigit(c)
    ensures d < 10
  {
    c as int - '0' as int
  }

  /** The decimal text of a natural number: digits only, never empty, no leading zero. */
  function NatToString(n: nat): (s: string)
    ensures 1 <= |s|
    ensures AllDigits(s)
    ensures |s| > 1 ==> s[0] != '0'
  {
    if n < 10 then [DigitChar(n)] else NatToString(n / 10) + [DigitChar(n % 10)]
  }

  /**
   * The decimal text of an integer: a minus sign in front of a negative one.
   * JavaScript's text agrees for magnitudes up to 2^53.
   */
  function IntToString(i: int): (s: string)
    ensures 1 <= |s|
    ensures i < 0 <==> s[0] == '-'
  {
    if i < 0 then "-" + NatToString(-i) else NatToString(i)
  }

  /** The number a string of digits denotes, most significant digit first. */
  function DigitsValue(s: string): nat
    requires AllDigits(s)
  {
    if |s| == 0 then 0 else 10 * DigitsValue(s[..|s| - 1]) + DigitValue(s[|s| - 1])
  }

  function Pow10(k: nat): nat {
    if k == 0 then 1 else 10 * Pow10(k - 1)
  }

  /** The number of leading characters of `s` that are digits. */
  function DigitPrefixLength(s: string): (k: nat)
    ensures k <= |s|
    ensures AllDigits(s[..k])
    ensures k < |s| ==> !IsDigit(s[k])
  {
    if |s| == 0 || !IsDigit(s[0]) then 0
    else
      var k' := DigitPrefixLength(s[1..]);
      assert s[..1 + k'] == [s[0]] + s[1..][..k'];
      1 + k'
  }

  /** A digit string in the form rendering produces: non-empty, and no leading zero unless it is "0". */
  predicate CanonicalDigits(d: string) {
    0 < |d| && AllDigits(d) && (1 < |d| ==> d[0] != '0')
  }

  /**
   * Reads the run of digits at the front of `s`: its value and the text after
   * it. Only a canonical run is accepted, so "05" is not read as 5.
   */
  function ReadNat(s: string): (r: Option<(nat, string)>)
    ensures r.Some? ==> |r.value.1| < |s| && r.value.1 == s[|s| - |r.value.1|..]
    ensures r.Some? <==> CanonicalDigits(s[..DigitPrefixLength(s)])
  {
    var k := DigitPrefixLength(s);
    if k == 0 || (1 < k && s[0] == '0') then None else Some((DigitsValue(s[..k]), s[k..]))
  }

  /**
   * Reads an optionally signed integer at the front of `s`: its value and the
   * text after it. A minus sign must precede a non-zero value, so "-0" is rejected.
   */
  function ReadInt(s: string): (r: Option<(int, string)>)
    ensures r.Some? ==> |r.value.1| < |s|
  {
    if 0 < |s| && s[0] == '-' then
      match ReadNat(s[1..])
      case None => None
      case Some((n, rest)) => if n == 0 then None else Some((-(n as int), rest))
    else
      match ReadNat(s)
      case None => None
      case Some((n, rest)) => Some((n as int, rest))
  }

  lemma {:induction false} DigitsValueOfNatToString(n: nat)
    ensures DigitsValue(NatToString(n)) == n
  {
    if n >= 10 {
      var s := NatToString(n);
      assert s[..|s| - 1] == NatToString(n / 10);
      DigitsValueOfNatToString(n / 10);
    }
  }

  lemma {:induction false} DigitPrefixLengthOfConcat(s: string, rest: string)
    requires AllDigits(s)
    requires |rest| == 0 || !IsDigit(rest[0])
    ensures DigitPrefixLength(s + rest) == |s|
  {
    if |s| == 0 {
      assert s + rest == rest;
    } else {
      assert (s + rest)[1..] == s[1..] + rest;
      DigitPrefixLengthOfConcat(s[1..], rest);
    }
  }

  /** Reading back a rendered natural number that is followed by a non-digit recovers it. */
  lemma ReadNatOfNatToString(n: nat, rest: string)
    requires |rest| == 0 || !IsDigit(rest[0])
    ensures ReadNat(NatToString(n) + rest) == Some((n, rest))
  {
    var s := NatToString(n);
    DigitPrefixLengthOfConcat(s, rest);
    assert (s + rest)[..|s|] == s;
    assert (s + rest)[|s|..] == rest;
    DigitsValueOfNatToString(n);
  }

  /** Reading back a rendered integer that is followed by a non-digit recovers it. */
  lemma ReadIntOfIntToString(i: int, rest: string)
    requires |rest| == 0 || !IsDigit(rest[0])
    ensures ReadInt(IntToString(i) + rest) == Some((i, rest))
  {
    if i < 0 {
      ReadIntOfNegative(-i, rest);
    } else {
      ReadIntOfNonNegative(i, rest);
    }
  }

  lemma ReadIntOfNegative(n: nat, rest: string)
    requires 0 < n
    requires |rest| == 0 || !IsDigit(rest[0])
    ensures ReadInt("-" + NatToString(n) + rest) == Some((-(n as int), rest))
  {
    var s := "-" + NatToString(n) + rest;
    assert s[0] == '-' && s[1..] == NatToString(n) + rest;
    assert ReadNat(s[1..]) == Some((n, rest)) by {
      ReadNatOfNatToString(n, rest);
    }
  }

  lemma ReadIntOfNonNegative(n: nat, rest: string)
    requires |rest| == 0 || !IsDigit(rest[0])
    ensures ReadInt(NatToString(n) + rest) == Some((n as int, rest))
  {
    var s := NatToString(n) + rest;
    assert s[0] != '-' by {
      assert s[0] == NatToString(n)[0] && IsDigit(NatToString(n)[0]);
    }
    assert ReadNat(s) == Some((n, rest)) by {
      ReadNatOfNatToString(n, rest);
    }
  }

  /** A number below 10^k takes at most k digits. */
  lemma {:induction false} NatToStringLengthBound(n: nat, k: nat)
    requires 1 <= k
    requires n < Pow10(k)
    ensures |NatToString(n)| <= k
  {
    if n >= 10 {
      assert n / 10 < Pow10(k - 1);
      NatToStringLengthBound(n / 10, k - 1);
    }
  }

  /** A canonical digit string starting with a non-zero digit denotes a positive number. */
  lemma {:induction false} LeadingDigitPositive(d: string)
    requires 0 < |d| && AllDigits(d) && d[0] != '0'
    ensures DigitsValue(d) > 0
  {
    if 1 < |d| {
      LeadingDigitPositive(d[..|d| - 1]);
    }
  }

  /** Every canonical digit string is the rendering of the number it denotes. */
  lemma {:induction false} NatToStringOfDigitsValue(d: string)
    requires CanonicalDigits(d)
    ensures NatToString(DigitsValue(d)) == d
  {
    var v := DigitValue(d[|d| - 1]);
    if |d| == 1 {
      assert DigitsValue(d) == v;
      assert [DigitChar(v)] == d;
    } else {
      var p := d[..|d| - 1];
      var a := DigitsValue(p);
      NatToStringOfDigitsValue(p);
      LeadingDigitPositive(p);
      var n := DigitsValue(d);
      assert n == 10 * a + v;
      assert n / 10 == a && n % 10 == v;
      assert DigitChar(v) == d[|d| - 1];
      assert d == p + [d[|d| - 1]];
    }
  }

  /** Whatever `ReadNat` accepts is a rendered number followed by the rest. */
  lemma ReadNatSound(s: string, n: nat, rest: string)
    requires ReadNat(s) == Some((n, rest))
    ensures s == NatToString(n) + rest
  {
    var k := DigitPrefixLength(s);
    NatToStringOfDigitsValue(s[..k]);
    assert s == s[..k] + s[k..];
  }

  /** Whatever `ReadInt` accepts is a rendered integer followed by the rest. */
  lemma ReadIntSound(s: string, i: int, rest: string)
    requires ReadInt(s) == Some((i, rest))
    ensures s == IntToString(i) + rest
  {
    if 0 < |s| && s[0] == '-' {
      var (n, r) := ReadNat(s[1..]).value;
      assert 0 < n && i == -(n as int) && r == rest;
      assert s[1..] == NatToString(n) + rest by {
        ReadNatSound(s[1..], n, rest);
      }
      assert s == "-" + s[1..];
      Regroup(s, "-", s[1..], NatToString(n), rest);
    } else {
      var (n, r) := ReadNat(s).value;
      assert i == n as int && r == rest;
      ReadNatSound(s, n, rest);
    }
  }

  /** Regroups `a + (b + c)` as `a + b + c`; keeps sequence reasoning out of the reader proofs. */
  lemma Regroup(s: string, a: string, rest: string, b: string, c: string)
    requires s == a + rest && rest == b + c
    ensures s == a + b + c
  {
  }
}

=== FILE: deployment_config.dfy ===
/**
 * The deployment configuration of an ECS deployment group: validation of the
 * traffic-shifting parameters, the traffic routing configuration, the
 * configuration name (explicit or generated), the ARN, imported and
 * predefined configurations, and the deferred name check.
 *
 * The construct's unique id and the ARN formula come from code outside this
 * model, so they are parameters: `uniqueId` is the construct's unique id and
 * `arnFor` maps a configuration name to its ARN.
 */
module DeploymentConfig {
  import opened Wrappers
  import opened Decimal
  import opened NameValidation

  /** How traffic is shifted: all of it after one interval, or a fixed step every interval. */
  datatype ConfigType = Canary | Linear

  /** The enum's string value. */
  function TypeName(t: ConfigType): string {
    match t
    case Canary => "Canary"
    case Linear => "Linear"
  }

  /** What the caller hands to the constructor; the interval is in whole minutes. */
  datatype Props = Props(
    configType: ConfigType,
    percentage: int,
    intervalMinutes: nat,
    deploymentConfigName: Option<string>)

  /**
   * Why the constructor throws. `InvalidPercentage(p)` is thrown with the
   * text `PercentageMessage(p)`. The interval error's text embeds a rendered
   * duration and is not modelled.
   */
  datatype ConfigError =
    | InvalidPercentage(percentage: int)
    | InvalidInterval(intervalMinutes: nat)

  datatype TimeBasedCanary = TimeBasedCanary(canaryInterval: nat, canaryPercentage: int)

  datatype TimeBasedLinear = TimeBasedLinear(linearInterval: nat, linearPercentage: int)

  /** The traffic routing property of the emitted resource; each section is optional. */
  datatype TrafficRoutingConfig = TrafficRoutingConfig(
    routingType: string,
    timeBasedCanary: Option<TimeBasedCanary>,
    timeBasedLinear: Option<TimeBasedLinear>)

  /** The emitted `AWS::CodeDeploy::DeploymentConfig` resource's properties. */
  datatype CfnDeploymentConfig = CfnDeploymentConfig(
    deploymentConfigName: string,
    computePlatform: string,
    trafficRoutingConfig: TrafficRoutingConfig)

  /** A reference to a deployment configuration: its name and its ARN. */
  datatype DeploymentConfigRef = DeploymentConfigRef(deploymentConfigName: string, deploymentConfigArn: string)

  /** A configuration built by the constructor, with the resource it emits. */
  datatype EcsDeploymentConfig = EcsDeploymentConfig(
    deploymentConfigName: string,
    deploymentConfigArn: string,
    resource: CfnDeploymentConfig)
  {
    function Ref(): DeploymentConfigRef {
      DeploymentConfigRef(deploymentConfigName, deploymentConfigArn)
    }
  }

  const MinPercentage: int := 1
  const MaxPercentage: int := 99
  /** Two days. */
  const MaxIntervalMinutes: nat := 2880
  const ComputePlatform: string := "ECS"

  predicate PercentageInRange(percentage: int) {
    MinPercentage <= percentage <= MaxPercentage
  }

  predicate IntervalInRange(minutes: nat) {
    minutes <= MaxIntervalMinutes
  }

  predicate ParametersInRange(props: Props) {
    PercentageInRange(props.percentage) && IntervalInRange(props.intervalMinutes)
  }

  // ---------------------------------------------------------------------------
  // Parameter validation

  /**
   * The constructor's first step. The percentage is checked before the
   * interval, so a props value that breaks both reports the percentage.
   * There is no lower bound on the interval: zero minutes passes.
   */
  function ValidateParameters(props: Props): (r: Outcome<ConfigError>)
    ensures r.Pass? <==> ParametersInRange(props)
    ensures !PercentageInRange(props.percentage) ==> r == Fail(InvalidPercentage(props.percentage))
    ensures (PercentageInRange(props.percentage) && !IntervalInRange(props.intervalMinutes))
              ==> r == Fail(InvalidInterval(props.intervalMinutes))
  {
    if !(1 <= props.percentage && props.percentage <= 99) then
      Fail(InvalidPercentage(props.percentage))
    else if props.intervalMinutes > 2880 then
      Fail(InvalidInterval(props.intervalMinutes))
    else
      Pass
  }

  // ---------------------------------------------------------------------------
  // The percentage error's text

  /**
   * What the percentage error says before and after the percentage.
   * `deployment-config.ts` breaks its template literal with a line
   * continuation, which keeps the eight spaces indenting the next line: after
   * `". ` come eight more spaces before `Step`.
   */
  const PercentageMessageStart: string := "Invalid deployment config percentage \""
  const PercentageMessageEnd: string := "\"" + PercentageRuleText
  /** The rule stated after the quoted percentage. */
  const PercentageRuleText: string := ".         Step percentage must be an integer between 1 and 99."

  /** The text thrown for an out-of-range percentage; it quotes the percentage. */
  function PercentageMessage(percentage: int): (m: string)
    ensures PercentageFromMessage(m) == Some(percentage)
  {
    PercentageMessageRoundTrip(percentage);
    PercentageMessageStart + IntToString(percentage) + PercentageMessageEnd
  }

  /** Recovers the percentage a percentage error quotes, or None for any other text. */
  function PercentageFromMessage(m: string): Option<int> {
    if !StartsWith(m, PercentageMessageStart) then None
    else
      match ReadInt(m[|PercentageMessageStart|..])
      case None => None
      case Some((percentage, rest)) => if rest == PercentageMessageEnd then Some(percentage) else None
  }

  lemma PercentageMessageRoundTrip(percentage: int)
    ensures var m := PercentageMessageStart + IntToString(percentage) + PercentageMessageEnd;
            PercentageFromMessage(m) == Some(percentage)
  {
    assert 0 < |PercentageMessageEnd| && !IsDigit(PercentageMessageEnd[0]) by {
      assert PercentageMessageEnd == "\"" + PercentageRuleText;
    }
    QuotedIntRoundTrip(PercentageMessageStart, percentage, PercentageMessageEnd);
  }

  /** An integer rendered between two texts is read back from just after the first. */
  lemma QuotedIntRoundTrip(before: string, i: int, after: string)
    requires 0 < |after| && !IsDigit(after[0])
    ensures var m := before + IntToString(i) + after;
            StartsWith(m, before) && ReadInt(m[|before|..]) == Some((i, after))
  {
    var m := before + IntToString(i) + after;
    assert m == before + (IntToString(i) + after);
    assert m[..|before|] == before;
    assert m[|before|..] == IntToString(i) + after;
    ReadIntOfIntToString(i, after);
  }

  /** Whatever `PercentageFromMessage` accepts is exactly the message for that percentage. */
  lemma PercentageFromMessageSound(m: string, percentage: int)
    requires PercentageFromMessage(m) == Some(percentage)
    ensures m == PercentageMessage(percentage)
  {
    var tail := m[|PercentageMessageStart|..];
    assert StartsWith(m, PercentageMessageStart);
    var (p, rest) := ReadInt(tail).value;
    assert p == percentage && rest == PercentageMessageEnd;
    assert m == PercentageMessageStart + tail by {
      StartsWithSplit(m, PercentageMessageStart);
    }
    assert tail == IntToString(percentage) + PercentageMessageEnd by {
      ReadIntSound(tail, percentage, rest);
    }
    Regroup(m, PercentageMessageStart, tail, IntToString(percentage), PercentageMessageEnd);
  }

  /** Distinct percentages are reported with distinct messages. */
  lemma PercentageMessageInjective(p1: int, p2: int)
    requires PercentageMessage(p1) == PercentageMessage(p2)
    ensures p1 == p2
  {
    assert PercentageFromMessage(PercentageMessage(p1)) == Some(p1);
  }

  // ---------------------------------------------------------------------------
  // Traffic routing configuration

  /** The routing configuration for a type, step percentage and interval. */
  function RoutingConfig(t: ConfigType, percentage: int, minutes: nat): (rc: TrafficRoutingConfig)
    ensures rc.routingType == "TimeBased" + TypeName(t)
    ensures rc.timeBasedCanary.Some? <==> t == Canary
    ensures rc.timeBasedLinear.Some? <==> t == Linear
  {
    var deploymentType := "TimeBased" + TypeName(t);
    if t == Canary then
      TrafficRoutingConfig(deploymentType, Some(TimeBasedCanary(minutes, percentage)), None)
    else
      TrafficRoutingConfig(deploymentType, None, Some(TimeBasedLinear(minutes, percentage)))
  }

  /**
   * Reads type, percentage and interval back out of a routing configuration.
   * Only a configuration with exactly the section its type string names is
   * well formed.
   */
  function RoutingParameters(rc: TrafficRoutingConfig): Option<(ConfigType, int, nat)> {
    if rc.routingType == "TimeBasedCanary" && rc.timeBasedLinear.None? && rc.timeBasedCanary.Some? then
      Some((Canary, rc.timeBasedCanary.value.canaryPercentage, rc.timeBasedCanary.value.canaryInterval))
    else if rc.routingType == "TimeBasedLinear" && rc.timeBasedCanary.None? && rc.timeBasedLinear.Some? then
      Some((Linear, rc.timeBasedLinear.value.linearPercentage, rc.timeBasedLinear.value.linearInterval))
    else
      None
  }

  /** The routing configuration carries exactly the parameters it was built from. */
  lemma RoutingConfigRoundTrip(t: ConfigType, percentage: int, minutes: nat)
    ensures RoutingParameters(RoutingConfig(t, percentage, minutes)) == Some((t, percentage, minutes))
  {
  }

  /** Every well-formed routing configuration is the one built from the parameters it holds. */
  lemma RoutingParametersComplete(rc: TrafficRoutingConfig, t: ConfigType, percentage: int, minutes: nat)
    requires RoutingParameters(rc) == Some((t, percentage, minutes))
    ensures RoutingConfig(t, percentage, minutes) == rc
  {
  }

  // ---------------------------------------------------------------------------
  // Generated configuration name

  /**
   * The name used when the caller gives none:
   * `<uniqueId>.ECS<type><percentage>Percent[Every]<minutes>Minutes`,
   * with `Every` only for a linear configuration.
   */
  function GeneratedName(uniqueId: string, t: ConfigType, percentage: int, minutes: nat): (name: string)
    ensures ParseGeneratedName(uniqueId, name) == Some((t, percentage, minutes))
  {
    ComposedNameRoundTrip(uniqueId, t, percentage, minutes);
    uniqueId + ".ECS" + TypeName(t) + StepText(t, percentage, minutes)
  }

  /** `<percentage>Percent[Every]<minutes>Minutes`, the part of a generated name after the type. */
  function StepText(t: ConfigType, percentage: int, minutes: nat): string {
    IntToString(percentage) + "Percent" + IntervalText(t, minutes)
  }

  /** `[Every]<minutes>Minutes`, the part of a generated name after `Percent`. */
  function IntervalText(t: ConfigType, minutes: nat): string {
    (if t == Linear then "Every" else "") + NatToString(minutes) + "Minutes"
  }

  predicate StartsWith(s: string, prefix: string) {
    |prefix| <= |s| && s[..|prefix|] == prefix
  }

  /** A string that starts with `prefix` is `prefix` followed by what comes after it. */
  lemma StartsWithSplit(s: string, prefix: string)
    requires StartsWith(s, prefix)
    ensures s == prefix + s[|prefix|..]
  {
    assert s == s[..|prefix|] + s[|prefix|..];
  }

  /** Reads the type name at the front of `s`. */
  function ReadTypeName(s: string): Option<(ConfigType, string)> {
    if StartsWith(s, "Canary") then Some((Canary, s[6..]))
    else if StartsWith(s, "Linear") then Some((Linear, s[6..]))
    else None
  }

  /** Reads `[Every]<minutes>Minutes`, the part of a generated name after `Percent`. */
  function ParseInterval(t: ConfigType, s: string): Option<nat> {
    var every := if t == Linear then "Every" else "";
    if !StartsWith(s, every) then None
    else
      match ReadNat(s[|every|..])
      case None => None
      case Some((minutes, rest)) => if rest == "Minutes" then Some(minutes) else None
  }

  /** Reads `<percentage>Percent[Every]<minutes>Minutes`, the part after the type name. */
  function ParseStep(t: ConfigType, s: string): Option<(int, nat)> {
    match ReadInt(s)
    case None => None
    case Some((percentage, rest)) =>
      if !StartsWith(rest, "Percent") then None
      else
        match ParseInterval(t, rest[7..])
        case None => None
        case Some(minutes) => Some((percentage, minutes))
  }

  /**
   * Recovers type, percentage and interval from a name generated for the
   * construct with unique id `uniqueId`, or None when `name` does not have
   * the generated shape.
   */
  function ParseGeneratedName(uniqueId: string, name: string): Option<(ConfigType, int, nat)> {
    var head := uniqueId + ".ECS";
    if !StartsWith(name, head) then None
    else
      match ReadTypeName(name[|head|..])
      case None => None
      case Some((t, rest)) =>
        match ParseStep(t, rest)
        case None => None
        case Some((percentage, minutes)) => Some((t, percentage, minutes))
  }

  lemma ParseIntervalRoundTrip(t: ConfigType, minutes: nat)
    ensures ParseInterval(t, IntervalText(t, minutes)) == Some(minutes)
  {
    var every := if t == Linear then "Every" else "";
    var tail := NatToString(minutes) + "Minutes";
    var s := IntervalText(t, minutes);
    assert s == every + tail;
    assert s[..|every|] == every;
    assert s[|every|..] == tail;
    ReadNatOfNatToString(minutes, "Minutes");
  }

  lemma ParseStepRoundTrip(t: ConfigType, percentage: int, minutes: nat)
    ensures ParseStep(t, StepText(t, percentage, minutes)) == Some((percentage, minutes))
  {
    var s3 := IntervalText(t, minutes);
    var s2 := "Percent" + s3;
    assert StepText(t, percentage, minutes) == IntToString(percentage) + s2;
    ReadIntOfIntToString(percentage, s2);
    assert s2[..7] == "Percent";
    assert s2[7..] == s3;
    ParseIntervalRoundTrip(t, minutes);
  }

  lemma ReadTypeNameRoundTrip(t: ConfigType, rest: string)
    ensures ReadTypeName(TypeName(t) + rest) == Some((t, rest))
  {
  }

  /** The text of a generated name can be read back into the parameters it was built from. */
  lemma ComposedNameRoundTrip(uniqueId: string, t: ConfigType, percentage: int, minutes: nat)
    ensures var name := uniqueId + ".ECS" + TypeName(t) + StepText(t, percentage, minutes);
            ParseGeneratedName(uniqueId, name) == Some((t, percentage, minutes))
  {
    var head := uniqueId + ".ECS";
    var step := StepText(t, percentage, minutes);
    var name := uniqueId + ".ECS" + TypeName(t) + step;
    assert name == head + (TypeName(t) + step);
    assert name[..|head|] == head;
    assert name[|head|..] == TypeName(t) + step;
    ReadTypeNameRoundTrip(t, step);
    ParseStepRoundTrip(t, percentage, minutes);
  }

  lemma ReadTypeNameSound(s: string, t: ConfigType, rest: string)
    requires ReadTypeName(s) == Some((t, rest))
    ensures s == TypeName(t) + rest
  {
    assert s == s[..6] + s[6..];
  }

  lemma ParseIntervalSound(t: ConfigType, s: string, minutes: nat)
    requires ParseInterval(t, s) == Some(minutes)
    ensures s == IntervalText(t, minutes)
  {
    var every := if t == Linear then "Every" else "";
    var tail := s[|every|..];
    assert StartsWith(s, every);
    assert ReadNat(tail) == Some((minutes, "Minutes"));
    assert s == every + tail by {
      StartsWithSplit(s, every);
    }
    ReadNatSound(tail, minutes, "Minutes");
    Regroup(s, every, tail, NatToString(minutes), "Minutes");
  }

  lemma ParseStepSound(t: ConfigType, s: string, percentage: int, minutes: nat)
    requires ParseStep(t, s) == Some((percentage, minutes))
    ensures s == StepText(t, percentage, minutes)
  {
    var (p, rest) := ReadInt(s).value;
    assert StartsWith(rest, "Percent");
    assert p == percentage && ParseInterval(t, rest[7..]) == Some(minutes);
    assert rest == "Percent" + rest[7..] by {
      StartsWithSplit(rest, "Percent");
    }
    assert s == IntToString(percentage) + rest by {
      ReadIntSound(s, percentage, rest);
    }
    assert rest[7..] == IntervalText(t, minutes) by {
      ParseIntervalSound(t, rest[7..], minutes);
    }
    Regroup(s, IntToString(percentage), rest, "Percent", IntervalText(t, minutes));
  }

  /** Whatever `ParseGeneratedName` accepts is exactly the generated name for what it returns. */
  lemma ParseGeneratedNameSound(uniqueId: string, name: string, t: ConfigType, percentage: int, minutes: nat)
    requires ParseGeneratedName(uniqueId, name) == Some((t, percentage, minutes))
    ensures name == GeneratedName(uniqueId, t, percentage, minutes)
  {
    ParsedNameComposed(uniqueId, name, t, percentage, minutes);
  }

  lemma ParsedNameComposed(uniqueId: string, name: string, t: ConfigType, percentage: int, minutes: nat)
    requires ParseGeneratedName(uniqueId, name) == Some((t, percentage, minutes))
    ensures name == uniqueId + ".ECS" + TypeName(t) + StepText(t, percentage, minutes)
  {
    var head := uniqueId + ".ECS";
    var body := name[|head|..];
    var (t', rest) := ReadTypeName(body).value;
    assert StartsWith(name, head);
    assert t' == t && ParseStep(t, rest) == Some((percentage, minutes));
    assert name == head + body by {
      StartsWithSplit(name, head);
    }
    var step := StepText(t, percentage, minutes);
    assert body == TypeName(t) + rest by {
      ReadTypeNameSound(body, t, rest);
    }
    assert rest == step by {
      ParseStepSound(t, rest, percentage, minutes);
    }
    Regroup(name, head, body, TypeName(t), step);
  }

  /** A name is the generated name for given parameters exactly when it parses to them. */
  lemma GeneratedNameCharacterized(uniqueId: string, name: string, t: ConfigType, percentage: int, minutes: nat)
    ensures ParseGeneratedName(uniqueId, name) == Some((t, percentage, minutes))
            <==> name == GeneratedName(uniqueId, t, percentage, minutes)
  {
    if ParseGeneratedName(uniqueId, name) == Some((t, percentage, minutes)) {
      ParseGeneratedNameSound(uniqueId, name, t, percentage, minutes);
    }
  }

  /** Distinct parameters give distinct generated names for the same construct. */
  lemma GeneratedNameInjective(uniqueId: string, t1: ConfigType, p1: int, m1: nat, t2: ConfigType, p2: int, m2: nat)
    requires GeneratedName(uniqueId, t1, p1, m1) == GeneratedName(uniqueId, t2, p2, m2)
    ensures t1 == t2 && p1 == p2 && m1 == m2
  {
    assert ParseGeneratedName(uniqueId, GeneratedName(uniqueId, t1, p1, m1)) == Some((t1, p1, m1));
  }

  /** A generated name uses only allowed characters when the unique id does. */
  lemma GeneratedNameAllowedChars(uniqueId: string, t: ConfigType, percentage: int, minutes: nat)
    requires AllowedChars(uniqueId)
    ensures AllowedChars(GeneratedName(uniqueId, t, percentage, minutes))
  {
    var p := IntToString(percentage);
    assert AllowedChars(p) by {
      if percentage < 0 {
        assert p == "-" + NatToString(-percentage);
      }
    }
    var every := if t == Linear then "Every" else "";
    var m := NatToString(minutes);
    assert AllowedChars(m);
    AllowedCharsConcat(every, m);
    AllowedCharsConcat(every + m, "Minutes");
    assert AllowedChars(IntervalText(t, minutes));
    AllowedCharsConcat(p, "Percent");
    AllowedCharsConcat(p + "Percent", IntervalText(t, minutes));
    assert AllowedChars(StepText(t, percentage, minutes));
    AllowedCharsConcat(uniqueId, ".ECS");
    AllowedCharsConcat(uniqueId + ".ECS", TypeName(t));
    AllowedCharsConcat(uniqueId + ".ECS" + TypeName(t), StepText(t, percentage, minutes));
  }

  /** For validated parameters the generated suffix after the unique id is 26 to 35 characters long. */
  lemma GeneratedNameLength(uniqueId: string, t: ConfigType, percentage: int, minutes: nat)
    requires PercentageInRange(percentage) && IntervalInRange(minutes)
    ensures |uniqueId| + 26 <= |GeneratedName(uniqueId, t, percentage, minutes)| <= |uniqueId| + 35
  {
    assert Pow10(2) == 100 && Pow10(4) == 10000;
    NatToStringLengthBound(percentage, 2);
    NatToStringLengthBound(minutes, 4);
  }

  /** The deferred name check accepts the generated name of a construct whose unique id is short and plain. */
  lemma GeneratedNameValid(uniqueId: string, t: ConfigType, percentage: int, minutes: nat)
    requires AllowedChars(uniqueId) && |uniqueId| <= 65
    requires PercentageInRange(percentage) && IntervalInRange(minutes)
    ensures ValidName(GeneratedName(uniqueId, t, percentage, minutes))
  {
    GeneratedNameAllowedChars(uniqueId, t, percentage, minutes);
    GeneratedNameLength(uniqueId, t, percentage, minutes);
  }

  /** The deferred name check rejects the generated name of a construct whose unique id is 75 characters or more. */
  lemma GeneratedNameTooLong(uniqueId: string, t: ConfigType, percentage: int, minutes: nat)
    requires 75 <= |uniqueId|
    requires PercentageInRange(percentage) && IntervalInRange(minutes)
    ensures !ValidName(GeneratedName(uniqueId, t, percentage, minutes))
  {
    GeneratedNameLength(uniqueId, t, percentage, minutes);
  }

  // ---------------------------------------------------------------------------
  // Construction

  /** The name the constructor settles on: the explicit one verbatim, else the generated one. */
  function ConfigName(uniqueId: string, props: Props): string {
    match props.deploymentConfigName
    case Some(name) => name
    case None => GeneratedName(uniqueId, props.configType, props.percentage, props.intervalMinutes)
  }

  /**
   * The constructor: validate the parameters (throwing on failure), build the
   * routing configuration, choose the name, derive the ARN from it, and
   * emit the resource.
   */
  function NewEcsDeploymentConfig(uniqueId: string, arnFor: string -> string, props: Props)
    : (r: Result<EcsDeploymentConfig, ConfigError>)
    ensures r.Success? <==> ParametersInRange(props)
    ensures !PercentageInRange(props.percentage) ==> r == Failure(InvalidPercentage(props.percentage))
    ensures (PercentageInRange(props.percentage) && !IntervalInRange(props.intervalMinutes))
              ==> r == Failure(InvalidInterval(props.intervalMinutes))
    ensures r.Success? ==>
              && (props.deploymentConfigName.Some? ==> r.value.deploymentConfigName == props.deploymentConfigName.value)
              && (props.deploymentConfigName.None? ==>
                    r.value.deploymentConfigName
                      == GeneratedName(uniqueId, props.configType, props.percentage, props.intervalMinutes))
              && r.value.deploymentConfigArn == arnFor(r.value.deploymentConfigName)
              && r.value.resource.deploymentConfigName == r.value.deploymentConfigName
              && r.value.resource.computePlatform == "ECS"
              && RoutingParameters(r.value.resource.trafficRoutingConfig)
                   == Some((props.configType, props.percentage, props.intervalMinutes))
  {
    match ValidateParameters(props)
    case Fail(e) => Failure(e)
    case Pass =>
      var routing := RoutingConfig(props.configType, props.percentage, props.intervalMinutes);
      RoutingConfigRoundTrip(props.configType, props.percentage, props.intervalMinutes);
      var name := ConfigName(uniqueId, props);
      Success(EcsDeploymentConfig(name, arnFor(name), CfnDeploymentConfig(name, ComputePlatform, routing)))
  }

  /**
   * An explicit name changes nothing but the name: the same parameters are
   * rejected with the same error, and accepted ones give the same routing
   * configuration and compute platform.
   */
  lemma ExplicitNameOnlyChangesName(uniqueId: string, arnFor: string -> string, props: Props, name: string)
    ensures var named := NewEcsDeploymentConfig(uniqueId, arnFor, props.(deploymentConfigName := Some(name)));
            var unnamed := NewEcsDeploymentConfig(uniqueId, arnFor, props.(deploymentConfigName := None));
            && named.Success? == unnamed.Success?
            && (named.Failure? ==> named.error == unnamed.error)
            && (named.Success? ==>
                  && named.value.deploymentConfigName == name
                  && named.value.resource.trafficRoutingConfig == unnamed.value.resource.trafficRoutingConfig
                  && named.value.resource.computePlatform == unnamed.value.resource.computePlatform)
  {
  }

  // ---------------------------------------------------------------------------
  // References: imported and predefined configurations

  /** A reference built from a name alone; the ARN is a function of the name. */
  function Reference(arnFor: string -> string, name: string): (r: DeploymentConfigRef)
    ensures r.deploymentConfigName == name
    ensures r.deploymentConfigArn == arnFor(name)
  {
    DeploymentConfigRef(name, arnFor(name))
  }

  /** Imports a configuration defined elsewhere by name; the scope and id are ignored. */
  function FromEcsDeploymentConfigName(arnFor: string -> string, name: string): (r: DeploymentConfigRef)
    ensures r.deploymentConfigName == name
    ensures r.deploymentConfigArn == arnFor(name)
  {
    Reference(arnFor, name)
  }

  /** Importing a constructed configuration by its name gives back the same name and ARN. */
  lemma ImportOfConstructedConfig(uniqueId: string, arnFor: string -> string, props: Props)
    requires ParametersInRange(props)
    ensures NewEcsDeploymentConfig(uniqueId, arnFor, props).Success?
    ensures var c := NewEcsDeploymentConfig(uniqueId, arnFor, props).value;
            FromEcsDeploymentConfigName(arnFor, c.deploymentConfigName) == c.Ref()
  {
  }

  function AllAtOnce(arnFor: string -> string): DeploymentConfigRef {
    Reference(arnFor, "CodeDeployDefault.ECSAllAtOnce")
  }

  function Linear10PercentEvery1Minute(arnFor: string -> string): DeploymentConfigRef {
    Reference(arnFor, "CodeDeployDefault.ECSLinear10PercentEvery1Minutes")
  }

  function Linear10PercentEvery3Minutes(arnFor: string -> string): DeploymentConfigRef {
    Reference(arnFor, "CodeDeployDefault.ECSLinear10PercentEvery3Minutes")
  }

  function Canary10Percent5Minutes(arnFor: string -> string): DeploymentConfigRef {
    Reference(arnFor, "CodeDeployDefault.ECSCanary10Percent5Minutes")
  }

  function Canary10Percent15Minutes(arnFor: string -> string): DeploymentConfigRef {
    Reference(arnFor, "CodeDeployDefault.ECSCanary10Percent15Minutes")
  }

  /** Each predefined configuration is a reference by name, exactly as an import of that name. */
  lemma PredefinedConfigsAreImports(arnFor: string -> string)
    ensures AllAtOnce(arnFor)
              == FromEcsDeploymentConfigName(arnFor, "CodeDeployDefault.ECSAllAtOnce")
    ensures Linear10PercentEvery1Minute(arnFor)
              == FromEcsDeploymentConfigName(arnFor, "CodeDeployDefault.ECSLinear10PercentEvery1Minutes")
    ensures Linear10PercentEvery3Minutes(arnFor)
              == FromEcsDeploymentConfigName(arnFor, "CodeDeployDefault.ECSLinear10PercentEvery3Minutes")
    ensures Canary10Percent5Minutes(arnFor)
              == FromEcsDeploymentConfigName(arnFor, "CodeDeployDefault.ECSCanary10Percent5Minutes")
    ensures Canary10Percent15Minutes(arnFor)
              == FromEcsDeploymentConfigName(arnFor, "CodeDeployDefault.ECSCanary10Percent15Minutes")
  {
  }

  // ---------------------------------------------------------------------------
  // Worked examples: a 5 percent step every minute for the construct `MyConfig`

  lemma LinearStepText()
    ensures StepText(Linear, 5, 1) == "5PercentEvery1Minutes"
  {
    assert IntToString(5) == "5";
    assert IntervalText(Linear, 1) == "Every1Minutes";
    assert "5" + "Percent" == "5Percent";
    assert "5Percent" + "Every1Minutes" == "5PercentEvery1Minutes";
  }

  lemma CanaryStepText()
    ensures StepText(Canary, 5, 1) == "5Percent1Minutes"
  {
    assert IntToString(5) == "5";
    assert IntervalText(Canary, 1) == "1Minutes";
  }

  lemma LinearGeneratedName()
    ensures GeneratedName("MyConfig", Linear, 5, 1) == "MyConfig.ECSLinear5PercentEvery1Minutes"
  {
    LinearStepText();
    assert "MyConfig" + ".ECS" == "MyConfig.ECS";
    assert "MyConfig.ECS" + "Linear" == "MyConfig.ECSLinear";
    assert "MyConfig.ECSLinear" + "5PercentEvery1Minutes" == "MyConfig.ECSLinear5PercentEvery1Minutes";
  }

  /** A linear configuration without a name gets the generated name and a linear section only. */
  lemma LinearExample(arnFor: string -> string)
    ensures var r := NewEcsDeploymentConfig("MyConfig", arnFor, Props(Linear, 5, 1, None));
            && r.Success?
            && r.value.deploymentConfigName == "MyConfig.ECSLinear5PercentEvery1Minutes"
            && r.value.resource.trafficRoutingConfig
                 == TrafficRoutingConfig("TimeBasedLinear", None, Some(TimeBasedLinear(1, 5)))
  {
    LinearGeneratedName();
  }

  lemma CanaryGeneratedName()
    ensures GeneratedName("MyConfig", Canary, 5, 1) == "MyConfig.ECSCanary5Percent1Minutes"
  {
    CanaryStepText();
    assert "MyConfig" + ".ECS" == "MyConfig.ECS";
    assert "MyConfig.ECS" + "Canary" == "MyConfig.ECSCanary";
    assert "MyConfig.ECSCanary" + "5Percent1Minutes" == "MyConfig.ECSCanary5Percent1Minutes";
  }

  /** A canary configuration without a name gets the generated name, without `Every`, and a canary section only. */
  lemma CanaryExample(arnFor: string -> string)
    ensures var r := NewEcsDeploymentConfig("MyConfig", arnFor, Props(Canary, 5, 1, None));
            && r.Success?
            && r.value.deploymentConfigName == "MyConfig.ECSCanary5Percent1Minutes"
            && r.value.resource.trafficRoutingConfig
                 == TrafficRoutingConfig("TimeBasedCanary", Some(TimeBasedCanary(1, 5)), None)
  {
    CanaryGeneratedName();
  }

  // ---------------------------------------------------------------------------
  // Deferred name validation

  /** The hook the constructor registers: it checks the chosen name at synthesis. */
  function ValidationErrors(c: EcsDeploymentConfig): (errors: seq<NameError>)
    ensures |errors| == 0 <==> ValidName(c.deploymentConfigName)
    ensures forall e :: e in errors ==> e.kind == "Deployment config" && e.name == c.deploymentConfigName
  {
    NameErrors("Deployment config", c.deploymentConfigName)
  }

  /**
   * Synthesis of one configuration: if the hook reports anything, synthesis
   * fails with every message; otherwise the resource is emitted.
   */
  function Synthesize(c: EcsDeploymentConfig): (r: Result<CfnDeploymentConfig, seq<string>>)
    ensures r.Success? <==> ValidName(c.deploymentConfigName)
    ensures r.Success? ==> r.value == c.resource
    ensures r.Failure? ==> |r.error| == |ValidationErrors(c)|
    ensures r.Failure? ==> forall i :: 0 <= i < |r.error| ==> r.error[i] == ValidationErrors(c)[i].Message()
  {
    var errors := ValidationErrors(c);
    if |errors| == 0 then Success(c.resource)
    else Failure(seq(|errors|, i requires 0 <= i < |errors| => errors[i].Message()))
  }

  /**
   * The name check is deferred: construction with an explicit name succeeds
   * for any name, and synthesis then fails exactly when the name breaks a rule,
   * reporting each broken rule.
   */
  lemma ExplicitNameCheckedAtSynthesis(uniqueId: string, arnFor: string -> string, props: Props, name: string)
    requires ParametersInRange(props) && props.deploymentConfigName == Some(name)
    ensures NewEcsDeploymentConfig(uniqueId, arnFor, props).Success?
    ensures var c := NewEcsDeploymentConfig(uniqueId, arnFor, props).value;
            && (Synthesize(c).Failure? <==> !ValidName(name))
            && (|name| > MaxNameLength <==> NameTooLong("Deployment config", name) in ValidationErrors(c))
            && (!AllowedChars(name) <==> DisallowedCharacters("Deployment config", name) in ValidationErrors(c))
  {
  }

  /** A name of 101 letters is reported as too long, and only that. */
  lemma LongNameReported(name: string)
    requires |name| == 101 && forall i :: 0 <= i < |name| ==> name[i] == 'a'
    ensures NameErrors("Deployment config", name) == [NameTooLong("Deployment config", name)]
  {
    assert AllowedChars(name);
  }

  /** The too-long message quotes the name and then states the 100-character limit. */
  lemma LongNameMessage(name: string)
    ensures NameTooLong("Deployment config", name).Message()
              == "Deployment config name: \"" + name + "\"" + TooLongText
  {
    assert "Deployment config" + " name: \"" == "Deployment config name: \"";
  }

  /** A name with a space is reported for its characters, and only that. */
  lemma SpacedNameReported()
    ensures NameErrors("Deployment config", "my name") == [DisallowedCharacters("Deployment config", "my name")]
  {
    assert !AllowedChar("my name"[2]);
  }

  /** The disallowed-character message quotes the name and then lists the allowed character classes. */
  lemma SpacedNameMessage()
    ensures DisallowedCharacters("Deployment config", "my name").Message()
              == "Deployment config name: \"my name\"" + AllowedCharactersText
  {
    assert "Deployment config" + " name: \"" == "Deployment config name: \"";
    assert "Deployment config name: \"" + "my name" + "\"" == "Deployment config name: \"my name\"";
  }
}

=== FILE: name_validation.dfy ===
/**
 * The name check that CodeDeploy resources register as a deferred validation
 * hook: it runs when the app is synthesized, not when the construct is built,
 * and yields zero or more errors, each with a human-readable message.
 */
module NameValidation {

  /** The longest name CodeDeploy accepts. */
  const MaxNameLength: nat := 100

  /** Letters, digits and the punctuation `. _ + = , @ -`. */
  predicate AllowedChar(c: char) {
    || ('a' <= c <= 'z')
    || ('A' <= c <= 'Z')
    || ('0' <= c <= '9')
    || c == '.' || c == '_' || c == '+' || c == '=' || c == ',' || c == '@' || c == '-'
  }

  predicate AllowedChars(name: string) {
    forall i :: 0 <= i < |name| ==> AllowedChar(name[i])
  }

  predicate ValidName(name: string) {
    |name| <= MaxNameLength && AllowedChars(name)
  }

  /** What the too-long message says after the quoted name. */
  const TooLongText: string := " can be a max of 100 characters."

  /** What the disallowed-character message says after the quoted name: the allowed character classes. */
  const AllowedCharactersText: string :=
    " can only contain letters (a-z, A-Z), numbers (0-9), periods (.), underscores (_), "
    + "+ (plus signs), = (equals signs), , (commas), @ (at signs), - (minus signs)."

  /** A broken naming rule; `kind` says what is named, e.g. "Deployment config". */
  datatype NameError =
    | NameTooLong(kind: string, name: string)
    | DisallowedCharacters(kind: string, name: string)
  {
    /** The text reported for the error: the kind, the quoted name, then the rule. */
    function Message(): string {
      match this
      case NameTooLong(kind, name) => kind + " name: \"" + name + "\"" + TooLongText
      case DisallowedCharacters(kind, name) => kind + " name: \"" + name + "\"" + AllowedCharactersText
    }
  }

  /**
   * The validation hook: one error per broken rule, the length rule first.
   * The name is accepted exactly when no error is reported.
   */
  function NameErrors(kind: string, name: string): (errors: seq<NameError>)
    ensures |errors| == 0 <==> ValidName(name)
    ensures NameTooLong(kind, name) in errors <==> |name| > MaxNameLength
    ensures DisallowedCharacters(kind, name) in errors <==> !AllowedChars(name)
    ensures forall e :: e in errors ==> e.kind == kind && e.name == name
    ensures forall i, j :: 0 <= i < j < |errors| ==> errors[i] != errors[j]
    ensures |name| > MaxNameLength ==> errors[0] == NameTooLong(kind, name)
  {
    (if |name| > MaxNameLength then [NameTooLong(kind, name)] else [])
    + (if AllowedChars(name) then [] else [DisallowedCharacters(kind, name)])
  }

  lemma AllowedCharsConcat(a: string, b: string)
    requires AllowedChars(a) && AllowedChars(b)
    ensures AllowedChars(a + b)
  {
  }
}

=== FILE: wrappers.dfy ===
/** Failure-carrying wrappers used throughout the model. */
module Wrappers {

  /** A value that may be absent (an optional property, a failed parse). */
  datatype Option<+T> = None | Some(value: T)

  /** Either a value or the error that was thrown instead. */
  datatype Result<+R, +E> = Success(value: R) | Failure(error: E)

  /** A check that either passes or fails with an error, carrying no value. */
  datatype Outcome<+E> = Pass | Fail(error: E)
}
